=== FILE: README.md ===
# Bible-verse display: server state, settings rules and text defaults

This project models the logic of the verse-display app that can be stated as pure
rules. The rest of the app is React Native rendering.

- **VerseServer** (`verse_server.dfy`) is the verse-selection server. It holds a fixed table of
  ten verses from John and a current index, which starts at verse "1:5". It has a
  circular three-verse window (previous, current, next). It handles the
  `setReference` message, which moves the index to the named verse and broadcasts
  the new window to every connected client. A newly connected client gets the
  current window. Inbound messages arrive already decoded. The messages the server
  sends are returned as an outbox of `(client, message)` deliveries.
- **Stepper** (`stepper.dfy`) is the clamped "+"/"-" stepping shared by the font
  size and the clock size. It includes the range and parity invariants for any
  sequence of presses.
- **FontSettings** (`font_settings.dfy`) is the settings context. The font size
  starts at 18 and moves in steps of 2 within [12, 64]. `useSettings` fails when no
  provider is mounted.
- **SettingsScreen** (`settings_screen.dfy`) holds the settings-screen handlers:
  - the clock-size buttons, clamped to [16, 72];
  - the power-save timeout normalisation;
  - `String.prototype.trim`;
  - the connect button's state machine over the edited address, the saved
    address, the "connecting" flag, the error text and the latest attempt. An
    attempt ends in one of three ways: the socket opens, the socket fails, or the
    5-second timer fires.
- **ThemedText** (`themed_text.dfy`) holds the text component's defaults: the
  default font size per text type, the web font weight per text type, the
  `'default'` type fallback, and the choice between a style's font size and the
  default.
- **Wrappers** (`wrappers.dfy`) defines `Option` and `Result`.

`server/index.js` sends messages of type `verses` whose `data` payload is shaped
`{currentBook: 'John', verses: [...]}`; the model's `VersesMessage` is that payload.

`VerseServer.StepEvent` and `SettingsScreen.ConnStep` only route an event to its
handler, so that runs of events can be folded. What they do is stated by the
handlers' contracts and by the lemmas over runs.

## Model

| member | source | states |
|---|---|---|
| VerseServer.VersesHaveDistinctReferences | server/index.js:9-20 | No two verses of the table share a reference. |
| VerseServer.PrevIndex | server/index.js:25 | The previous index lies in [0, len). It is `i - 1`, except that index 0 wraps to the last index. |
| VerseServer.NextIndex | server/index.js:26 | The next index lies in [0, len). It is `i + 1`, except that the last index wraps to 0. |
| VerseServer.VerseGroup | server/index.js:24-28 | The window has exactly three verses, and the middle one is the verse at the centre. The first is the previous verse, and the last verse when the centre is 0. The third is the next verse, and the first verse when the centre is the last. |
| VerseServer.FindIndexFrom | server/index.js:46 | The result is -1 exactly when no verse at or after `k` matches. Otherwise it is a matching index with no match before it. |
| VerseServer.FindIndex | server/index.js:46 | `findIndex` gives -1 exactly when no verse has the reference. Otherwise it gives the first verse that does. |
| VerseServer.FoundIndexIsUnique | server/index.js:9-20 | With pairwise distinct references, `findIndex` returns the one index whose reference matches. |
| VerseServer.VersesPayload | server/index.js:34-40 | A `verses` message names the book John and carries exactly the window `getVerseGroup` builds. Those are three verses: the previous one (wrapping), the current one and the next one (wrapping). |
| VerseServer.Broadcast | server/index.js:50-58 | The broadcast sends one message per connected client, in client order, and every message is the same. |
| VerseServer.Connect | server/index.js:30-40 | A new client is appended to the end of the client list, which is connection order and so the order a broadcast visits. The index does not change. The new client alone receives the current window. |
| VerseServer.Handle | server/index.js:42-64 | Handling a message keeps the index inside the table and never changes the client list. A `setReference` whose reference names a verse moves the index to a verse with that reference and sends one message per connected client. Any other message changes nothing and sends nothing. `SetReferenceFound` states what those messages carry. |
| VerseServer.SetReferenceFound | server/index.js:45-58 | A present reference moves the index to the verse with that reference. Every connected client, in order, then receives `currentBook = 'John'` and that verse's window. |
| VerseServer.SetReferenceAbsent | server/index.js:46-47 | A reference that names no verse, or a missing reference, leaves the state unchanged and sends nothing. |
| VerseServer.IgnoredMessages | server/index.js:43-63 | A message of another type, or one that fails to decode, leaves the state unchanged and sends nothing. |
| VerseServer.SetReferenceIdempotent | server/index.js:45-48 | Handling the same `setReference` a second time gives the state and outbox of the first call. The state stays put, and the same broadcast, or the same empty outbox, is sent again. |
| VerseServer.InitialPointsAtOneFive | server/index.js:14-22 | The initial index is valid, its verse is "1:5", and `findIndex("1:5")` is that index. |
| VerseServer.StepEvent | server/index.js:30-64 | A connection or an inbound message, whichever arrives, leaves the index inside the table. |
| VerseServer.StepSendsCurrentWindow | server/index.js:34-57 | Every message a connection or an inbound message sends goes to a connected client. It carries John and the window of the index that step leaves behind. |
| VerseServer.RunKeepsIndexAndMessagesWellFormed | server/index.js:30-64 | Over any run of connections and messages, the index stays inside the table. Every message sent names John and carries three verses of the table. |
| Stepper.StepUp | contexts/SettingsContext.tsx:15 | "+" never exceeds the upper bound or `v + step`, and equals one of them. |
| Stepper.StepDown | contexts/SettingsContext.tsx:19 | "-" never drops below the lower bound or `v - step`, and equals one of them. |
| Stepper.ApplyStaysInRange | contexts/SettingsContext.tsx:14-20 | Any sequence of presses from a value in [lo, hi] stays in [lo, hi]. |
| Stepper.ApplyStaysEven | contexts/SettingsContext.tsx:12-20 | With an even start, step and bounds, every value reached is even. |
| Stepper.DownUndoesUp | contexts/SettingsContext.tsx:14-20 | Away from the bounds, "-" undoes "+". |
| Stepper.UpUndoesDown | contexts/SettingsContext.tsx:14-20 | Away from the bounds, "+" undoes "-". |
| Stepper.BoundsAreFixedPoints | contexts/SettingsContext.tsx:14-20 | "+" at the upper bound and "-" at the lower bound change nothing. |
| FontSettings.IncreaseFontSize | contexts/SettingsContext.tsx:14-16 | `increaseFontSize` never exceeds 64. It adds 2 when that fits and gives 64 otherwise. |
| FontSettings.DecreaseFontSize | contexts/SettingsContext.tsx:18-20 | `decreaseFontSize` never drops below 12. It subtracts 2 when that fits and gives 12 otherwise. |
| FontSettings.ReachableFontSize | contexts/SettingsContext.tsx:12-20 | Every font size reachable from the initial 18 lies in [12, 64] and is even. |
| FontSettings.FontSizeIdempotentAtBounds | contexts/SettingsContext.tsx:14-20 | Increasing at 64 and decreasing at 12 change nothing. |
| FontSettings.FontSizeStepsInverse | contexts/SettingsContext.tsx:14-20 | Inside [12, 64] and away from the bounds, a decrease undoes an increase and vice versa. |
| FontSettings.UseSettings | contexts/SettingsContext.tsx:29-35 | `useSettings` yields the provider's value exactly when a provider is mounted. Otherwise it is an error carrying the source's message, never a value. |
| SettingsScreen.DecreaseClockSize | app/settings.tsx:352 | Clock-size "-" never gives less than 16. It subtracts 2 when that fits and gives 16 otherwise. |
| SettingsScreen.IncreaseClockSize | app/settings.tsx:359 | Clock-size "+" never gives more than 72. It adds 2 when that fits and gives 72 otherwise. |
| SettingsScreen.ClockSizeStaysInRange | app/settings.tsx:352-359 | From any clock size in [16, 72], any sequence of presses stays in [16, 72]. |
| SettingsScreen.NormalizeTimeout | app/settings.tsx:305-307 | The stored timeout is at least 1. A parsed value of at least 1 is kept. NaN, zero and anything below 1 store 1. |
| SettingsScreen.NormalizeTimeoutIdempotent | app/settings.tsx:304-307 | Typing back the displayed timeout stores the same value. |
| SettingsScreen.TrimStart | app/settings.tsx:92 | The result is a suffix of the input that does not start with white space. |
| SettingsScreen.TrimEnd | app/settings.tsx:92 | The result is a prefix of the input that does not end with white space. |
| SettingsScreen.Trim | app/settings.tsx:92 | `trim()` gives a contiguous slice of the input that neither starts nor ends with white space. |
| SettingsScreen.TrimStartRemovesOnlyWhitespace | app/settings.tsx:92 | Every character `TrimStart` removes is white space. An all-white-space string trims to nothing. |
| SettingsScreen.TrimEndRemovesOnlyWhitespace | app/settings.tsx:92 | Every character `TrimEnd` removes is white space. |
| SettingsScreen.TrimRemovesOnlyWhitespace | app/settings.tsx:92 | `trim()` removes exactly the leading and trailing white space: every character before the result and every character after it is white space, and the result is the input between them. |
| SettingsScreen.BlankIffAllWhitespace | app/settings.tsx:92 | `trim()` leaves nothing exactly when every character is white space. |
| SettingsScreen.EditUrl | app/settings.tsx:250-253 | Editing the address replaces the edited address and clears the error. Nothing else changes. |
| SettingsScreen.PressConnect | app/settings.tsx:91-131 | While connecting, a press does nothing because the button is disabled. An all-white-space address, which is what `trim()` empties, only sets "Adresa nu poate fi goală". A non-blank address sets the flag, clears the error and starts an attempt on that address. An address the socket rejects sets the invalid-address error and clears the flag. |
| SettingsScreen.SocketOpened | app/settings.tsx:68-118 | On open, the attempt's address is saved, the flag is cleared, the timer is disarmed and the error is left as it was. If the saved address changed, the effect at lines 68-70 overwrites the edited address with it, discarding anything typed while connecting. Otherwise the edited address is kept. Without a connecting socket, nothing changes. |
| SettingsScreen.SocketFailed | app/settings.tsx:121-126 | On error, the flag is cleared, the connection error is set, the timer is disarmed and the saved address is kept. |
| SettingsScreen.TimerFired | app/settings.tsx:105-111 | A pending timer on a socket that is not open closes it, sets the timeout error and clears the flag. The socket's `error` event may still follow. Without a pending timer, nothing changes. |
| SettingsScreen.ConnStepKeepsInv | app/settings.tsx:91-132 | Every handler keeps three facts. The flag is set exactly while a timer is pending. A pending timer means the socket is still connecting. An attempt's address is non-blank. |
| SettingsScreen.PendingTimerAlwaysTimesOut | app/settings.tsx:105-118 | Whenever the timer fires while connecting, the socket is not open. Right after the timer fires, the flag is cleared, the timeout error is shown and the saved address is kept. A later `error` event can still replace the text; see `TimeoutThenErrorShowsConnectionError`. |
| SettingsScreen.TimeoutThenErrorShowsConnectionError | app/settings.tsx:105-126 | A timeout first shows the timeout text. If the closed socket then reports its failure, `onerror` replaces that text with the connection-error text. The saved address is kept and the flag stays cleared. |
| SettingsScreen.ConnStepSavesOnlyAttemptUrl | app/settings.tsx:114-117 | The saved address changes only to the latest attempt's address. |
| SettingsScreen.ConnRunKeepsInv | app/settings.tsx:91-132 | From any state that satisfies the invariant, every sequence of screen events keeps it. The saved address stays the starting one or a non-blank one. |
| SettingsScreen.OpeningScreenRunKeepsInv | app/settings.tsx:91-132 | The screen as it opens, with the edited address equal to the saved one and no attempt, satisfies the invariant, and so does every state any sequence of events reaches from it. The saved address stays the opening one or a non-blank one. |
| SettingsScreen.AttemptOutcomes | app/settings.tsx:97-126 | Pressing on a non-blank address sets the flag and clears the error. Open then saves exactly that address. Error or timeout keeps the old address and sets the matching error, stated right after that one event. All three clear the flag. |
| SettingsScreen.BlankAddressMakesNoAttempt | app/settings.tsx:92-95 | An all-whitespace address sets "Adresa nu poate fi goală". It starts no attempt and leaves the flag and the saved address unchanged. |
| ThemedText.ResolveType | components/ThemedText.tsx:14 | An omitted `type` is `'default'`. A given one is used as is. |
| ThemedText.DefaultFontSize | components/ThemedText.tsx:66-78 | The default size is one of 16, 20, 32. It is 32 exactly for `'title'` and 20 exactly for `'subtitle'`, so every other value gets 16. |
| ThemedText.WebFontWeight | components/ThemedText.tsx:29-33 | The web weight is one of `'normal'`, `'bold'`, `'600'`. It is `'bold'` exactly for title and subtitle and `'600'` exactly for defaultSemiBold, so default, link and any other value get `'normal'`. |
| ThemedText.NativeAndWebDefaultsAgree | components/ThemedText.tsx:80-100 | The native style sheet has an entry exactly for the five declared types. Its font size equals `getDefaultFontSize`, and its weight, `'normal'` when unset, equals the web weight. |
| ThemedText.EffectiveFontSize | components/ThemedText.tsx:18 | A present, non-zero style font size is used. Otherwise the default for the resolved type is used. |
| ThemedText.WebStyleFontSize | components/ThemedText.tsx:28-44 | On the web, when flattening succeeds, any font size the style sets overrides the base style's default. `flattenThrows` is the case where flattening the base style with the style at line 39 throws after line 18 flattened the style alone. Then the catch at lines 41-44 draws the base style alone, with the default size. |
| ThemedText.WebSizeMatchesEffectiveUnlessZero | components/ThemedText.tsx:18-44 | When flattening succeeds, the web drawn size and the size the line height uses differ exactly when the style's font size is 0. When line 39 throws after line 18 succeeded, they agree exactly when the style's size is absent, 0, or equal to the default. |

## Left out

- WebSocket, express and HTTP setup, `send` and `listen` (server/index.js:1-7, 67-70): these are I/O. Outbound messages are returned as a sequence of deliveries.
- JSON encoding and decoding: a message arrives as the `Inbound` datatype. `Malformed` stands for any message whose parsing or field access throws.
- Removal of closed sockets from the server's client set: the `ws` library does this, not `server/index.js`. The model's client list only grows.
- VerseServer.VerseGroup: requires the centre to lie inside the table. The source only calls it with the current index, which the model proves always does.
- The `new WebSocket`, `setTimeout` and `clearTimeout` calls: they become the events `ConnectPressed(accepted)`, `OnOpen`, `OnError` and `OnTimeout`. Whether the constructor accepts an address is a parameter.
- Events from an earlier attempt's socket after a new press: only the latest attempt is tracked. A socket the timeout closed can still fire `error`, which replaces the timeout text with the connection-error text (`TimeoutThenErrorShowsConnectionError`). Whether that event arrives is up to the platform, so it is an input event. This hides a real interleaving. The `onerror` closure of an earlier attempt (app/settings.tsx:121-126) still runs after a new press. The socket can be the timed-out one, or an opened one that the code never closes. It sets the connection-error text and clears `isConnecting` while the new attempt's timer is pending. So `ConnInv`'s "the flag is set exactly while a timer is pending" (`SettingsScreen.ConnStepKeepsInv`, `SettingsScreen.ConnRunKeepsInv`) holds only under this simplification.
- AsyncStorage persistence and the JSON-or-raw fallback (contexts/utils.tsx): foreign storage and a library parser.
- SettingsScreen.NormalizeTimeout: `parseFloat` is a parameter, `None` for NaN. Infinity and IEEE rounding are not modelled.
- ThemedText.EffectiveFontSize: a NaN style font size is not modelled. NaN is falsy in JavaScript, so the default would apply. The function is total, but a style whose flattening throws makes `ThemedText` throw at line 18, outside any `try`. Nothing is drawn then, and the model has no such outcome.
- ThemedText.WebStyleFontSize: a NaN style font size is not modelled. Whether `StyleSheet.flatten` throws is a library behaviour, so the model takes it as the `flattenThrows` parameter. That parameter covers only a throw at line 39 after line 18 succeeded. A style whose flattening throws at line 18 makes `ThemedText` throw before the `try`, so the fallback at lines 41-44 does not guard it.
- The line height `Math.round(fontSize * 1.3)`: floating point.
- Logging: the `console.log`, `console.error` and `console.warn` calls (server/index.js:31 and 62, app/settings.tsx:123 and 128, components/ThemedText.tsx:42) are output only and are not modelled.
- Rendering, styling, navigation, colour pickers, the clock display and the remaining components: no algorithmic content.
- The other settings fields that `useSettings()` is destructured into in app/settings.tsx: their definitions are not part of this model, so no bounds are invented for them.

=== FILE: font_settings.dfy ===
/** The settings context: a font size that starts at 18 and is changed in
    steps of 2 within [12, 64], and the hook that reads the context and fails
    when no provider is mounted. */
module FontSettings {
  import opened Wrappers
  import Stepper

  const InitialFontSize: int := 18
  const MinFontSize: int := 12
  const MaxFontSize: int := 64
  const FontStep: nat := 2

  /** `increaseFontSize`: two points larger, never above 64. */
  function IncreaseFontSize(prev: int): (r: int)
    ensures r <= MaxFontSize
    ensures prev + FontStep <= MaxFontSize ==> r == prev + FontStep
    ensures prev + FontStep > MaxFontSize ==> r == MaxFontSize
  {
    Stepper.StepUp(prev, FontStep, MaxFontSize)
  }

  /** `decreaseFontSize`: two points smaller, never below 12. */
  function DecreaseFontSize(prev: int): (r: int)
    ensures r >= MinFontSize
    ensures prev - FontStep >= MinFontSize ==> r == prev - FontStep
    ensures prev - FontStep < MinFontSize ==> r == MinFontSize
  {
    Stepper.StepDown(prev, FontStep, MinFontSize)
  }

  /** The font size after a sequence of button presses from the initial 18. */
  function FontSizeAfter(presses: seq<Stepper.Press>): int {
    Stepper.Apply(InitialFontSize, FontStep, MinFontSize, MaxFontSize, presses)
  }

  /** Every reachable font size lies in [12, 64] and is even. */
  lemma ReachableFontSize(presses: seq<Stepper.Press>)
    ensures MinFontSize <= FontSizeAfter(presses) <= MaxFontSize
    ensures FontSizeAfter(presses) % 2 == 0
  {
    Stepper.ApplyStaysInRange(InitialFontSize, FontStep, MinFontSize, MaxFontSize, presses);
    Stepper.ApplyStaysEven(InitialFontSize, FontStep, MinFontSize, MaxFontSize, presses);
  }

  /** Increasing at 64 and decreasing at 12 change nothing. */
  lemma FontSizeIdempotentAtBounds()
    ensures IncreaseFontSize(MaxFontSize) == MaxFontSize
    ensures DecreaseFontSize(MinFontSize) == MinFontSize
  {
  }

  /** Between the bounds, a decrease undoes an increase and vice versa. */
  lemma FontSizeStepsInverse(v: int)
    requires MinFontSize <= v <= MaxFontSize
    ensures v <= MaxFontSize - FontStep ==> DecreaseFontSize(IncreaseFontSize(v)) == v
    ensures v >= MinFontSize + FontStep ==> IncreaseFontSize(DecreaseFontSize(v)) == v
  {
  }

  /** The value a provider puts into the context. */
  datatype SettingsValue = SettingsValue(fontSize: int)

  const UseSettingsError: string := "useSettings must be used within a SettingsProvider"

  /** `useSettings`: the provider's value, or an error when no provider is mounted
      above the caller (`context` is `None`). */
  function UseSettings(context: Option<SettingsValue>): (r: Result<SettingsValue, string>)
    ensures r.Success? <==> context.Some?
    ensures r.Success? ==> r.value == context.value
    ensures r.Failure? ==> r.error == UseSettingsError
  {
    match context
    case Some(v) => Success(v)
    case None => Failure(UseSettingsError)
  }
}

=== FILE: settings_screen.dfy ===
/** The event handlers of the settings screen: the clock-size buttons, the
    power-save timeout field, and the server-address field with its "connect"
    button. The WebSocket, its timer and the platform's URL check are replaced by
    input events: the socket opening, the socket failing, the timer firing, and
    whether the socket constructor accepted the address. */
module SettingsScreen {
  import opened Wrappers
  import Stepper

  // ---------------------------------------------------------------------------
  // Clock size

  const MinClockSize: int := 16
  const MaxClockSize: int := 72
  const ClockStep: nat := 2

  /** The "-" button under the clock size. */
  function DecreaseClockSize(size: int): (r: int)
    ensures r >= MinClockSize
    ensures size - ClockStep >= MinClockSize ==> r == size - ClockStep
    ensures size - ClockStep < MinClockSize ==> r == MinClockSize
  {
    Stepper.StepDown(size, ClockStep, MinClockSize)
  }

  /** The "+" button under the clock size. */
  function IncreaseClockSize(size: int): (r: int)
    ensures r <= MaxClockSize
    ensures size + ClockStep <= MaxClockSize ==> r == size + ClockStep
    ensures size + ClockStep > MaxClockSize ==> r == MaxClockSize
  {
    Stepper.StepUp(size, ClockStep, MaxClockSize)
  }

  /** From any clock size in [16, 72], any sequence of presses stays in [16, 72]. */
  lemma ClockSizeStaysInRange(start: int, presses: seq<Stepper.Press>)
    requires MinClockSize <= start <= MaxClockSize
    ensures MinClockSize <= Stepper.Apply(start, ClockStep, MinClockSize, MaxClockSize, presses) <= MaxClockSize
  {
    Stepper.ApplyStaysInRange(start, ClockStep, MinClockSize, MaxClockSize, presses);
  }

  // ---------------------------------------------------------------------------
  // Power-save timeout

  /** The timeout stored for the text typed into the timeout field, given what
      `parseFloat` made of it (`None` for NaN): NaN and zero fall back to 1, and
      the stored value is never below 1. */
  function NormalizeTimeout(parsed: Option<real>): (r: real)
    ensures r >= 1.0
    ensures parsed.Some? && parsed.value >= 1.0 ==> r == parsed.value
    ensures parsed.None? || parsed.value < 1.0 ==> r == 1.0
  {
    var number := if parsed.None? || parsed.value == 0.0 then 1.0 else parsed.value;
    if number > 1.0 then number else 1.0
  }

  /** The field shows the stored timeout; typing it back stores the same value. */
  lemma NormalizeTimeoutIdempotent(parsed: Option<real>)
    ensures NormalizeTimeout(Some(NormalizeTimeout(parsed))) == NormalizeTimeout(parsed)
  {
  }

  // ---------------------------------------------------------------------------
  // String trimming

  /** The characters `String.prototype.trim` removes: ECMAScript white space and
      line terminators. */
  predicate IsWhitespace(c: char) {
    || c == '\t' || c == '\n' || c == '\U{000B}' || c == '\U{000C}' || c == '\r' || c == ' '
    || c == '\U{00A0}' || c == '\U{1680}' || ('\U{2000}' <= c <= '\U{200A}')
    || c == '\U{2028}' || c == '\U{2029}' || c == '\U{202F}' || c == '\U{205F}'
    || c == '\U{3000}' || c == '\U{FEFF}'
  }

  /** `String.prototype.trimStart`: drop leading white space. */
  function TrimStart(s: string): (r: string)
    ensures |r| <= |s| && r == s[|s| - |r|..]
    ensures r != [] ==> !IsWhitespace(r[0])
  {
    if s != [] && IsWhitespace(s[0]) then TrimStart(s[1..]) else s
  }

  /** `String.prototype.trimEnd`: drop trailing white space. */
  function TrimEnd(s: string): (r: string)
    ensures |r| <= |s| && r == s[..|r|]
    ensures r != [] ==> !IsWhitespace(r[|r| - 1])
  {
    if s != [] && IsWhitespace(s[|s| - 1]) then TrimEnd(s[..|s| - 1]) else s
  }

  /** `String.prototype.trim`: a slice of the input that neither starts nor ends
      with white space. */
  function Trim(s: string): (r: string)
    ensures |r| <= |s|
    ensures |r| <= |TrimStart(s)| && r == s[|s| - |TrimStart(s)|..][..|r|]
    ensures r != [] ==> !IsWhitespace(r[0]) && !IsWhitespace(r[|r| - 1])
  {
    TrimEnd(TrimStart(s))
  }

  /** An address is blank when trimming leaves nothing (`!tempWsUrl.trim()`). */
  predicate IsBlank(s: string) {
    Trim(s) == ""
  }

  /** Every character is white space. */
  predicate AllWhitespace(s: string) {
    forall i :: 0 <= i < |s| ==> IsWhitespace(s[i])
  }

  /** `TrimStart` removes white space only, and removes all of it from an
      all-white-space string. */
  lemma {:induction false} TrimStartRemovesOnlyWhitespace(s: string)
    ensures forall i :: 0 <= i < |s| - |TrimStart(s)| ==> IsWhitespace(s[i])
    ensures AllWhitespace(s) ==> TrimStart(s) == ""
    decreases |s|
  {
    if s != [] && IsWhitespace(s[0]) {
      TrimStartRemovesOnlyWhitespace(s[1..]);
      assert forall i :: 1 <= i < |s| ==> s[i] == s[1..][i - 1];
    }
  }

  /** `TrimEnd` removes white space only. */
  lemma {:induction false} TrimEndRemovesOnlyWhitespace(s: string)
    ensures forall i :: |TrimEnd(s)| <= i < |s| ==> IsWhitespace(s[i])
    decreases |s|
  {
    if s != [] && IsWhitespace(s[|s| - 1]) {
      TrimEndRemovesOnlyWhitespace(s[..|s| - 1]);
    }
  }

  /** The number of characters `TrimStart` removes. */
  function LeadingWhitespace(s: string): nat {
    |s| - |TrimStart(s)|
  }

  /** `Trim` removes a run of white space from each end and nothing else: the
      result is the input from the first non-white-space character on, cut just
      after the last one. */
  lemma TrimRemovesOnlyWhitespace(s: string)
    ensures LeadingWhitespace(s) + |Trim(s)| <= |s|
    ensures Trim(s) == s[LeadingWhitespace(s)..LeadingWhitespace(s) + |Trim(s)|]
    ensures forall i :: 0 <= i < LeadingWhitespace(s) ==> IsWhitespace(s[i])
    ensures forall i :: LeadingWhitespace(s) + |Trim(s)| <= i < |s| ==> IsWhitespace(s[i])
  {
    var t := TrimStart(s);
    var p := |s| - |t|;
    var r := TrimEnd(t);
    TrimStartRemovesOnlyWhitespace(s);
    TrimEndRemovesOnlyWhitespace(t);
    assert t == s[p..];
    assert r == t[..|r|];
    assert r == s[p..p + |r|];
    forall i | p + |r| <= i < |s|
      ensures IsWhitespace(s[i])
    {
      assert s[i] == t[i - p];
    }
  }

  /** Trimming leaves nothing exactly when every character is white space. */
  lemma BlankIffAllWhitespace(s: string)
    ensures IsBlank(s) <==> AllWhitespace(s)
  {
    var t := TrimStart(s);
    TrimStartRemovesOnlyWhitespace(s);
    TrimEndRemovesOnlyWhitespace(t);
    if IsBlank(s) {
      assert t == [];
    }
  }

  // ---------------------------------------------------------------------------
  // The connect button

  const ErrEmptyAddress: string := "Adresa nu poate fi goală"
  const ErrTimeout: string := "Conexiunea a expirat. Verificați adresa și încercați din nou."
  const ErrConnection: string := "Eroare de conexiune. Verificați adresa și încercați din nou."
  const ErrInvalidAddress: string := "Adresă invalidă. Verificați formatul și încercați din nou."

  /** The `readyState` of a socket created by a connection attempt. `Closing` is
      a socket the timeout closed before it opened: the platform still fails the
      connection, so its `error` event may yet fire. */
  datatype ReadyState = Connecting | Open | Closing | Closed

  /** A connection attempt: the address captured when the button was pressed,
      whether its 5-second timer is still pending, and its socket's state. */
  datatype Attempt = Attempt(url: string, timerArmed: bool, ready: ReadyState)

  /** The screen's connection state: the address being edited, the saved address,
      the "connecting" flag, the error shown, and the latest attempt. */
  datatype ConnState = ConnState(
    tempWsUrl: string,
    wsUrl: string,
    isConnecting: bool,
    connectionError: Option<string>,
    attempt: Option<Attempt>)

  /** Things that happen on the screen: typing in the address field, a press of
      the connect button (`accepted` says whether the socket constructor accepted
      the address), and the latest attempt's socket opening, failing, or its timer
      firing. */
  datatype UiEvent =
    | UrlTyped(text: string)
    | ConnectPressed(accepted: bool)
    | OnOpen
    | OnError
    | OnTimeout

  /** The screen as it opens: the edited address starts as the saved one. */
  function InitialConn(wsUrl: string): ConnState {
    ConnState(wsUrl, wsUrl, false, None, None)
  }

  /** The relation the handlers keep between the flag, the timer and the socket. */
  ghost predicate ConnInv(s: ConnState) {
    && (s.isConnecting <==> s.attempt.Some? && s.attempt.value.timerArmed)
    && (s.attempt.Some? && s.attempt.value.timerArmed ==> s.attempt.value.ready == Connecting)
    && (s.attempt.Some? ==> !AllWhitespace(s.attempt.value.url))
  }

  /** Typing in the address field replaces the edited address and clears the error. */
  function EditUrl(s: ConnState, text: string): (s': ConnState)
    ensures s'.tempWsUrl == text && s'.connectionError == None
    ensures s'.wsUrl == s.wsUrl && s'.isConnecting == s.isConnecting && s'.attempt == s.attempt
  {
    s.(tempWsUrl := text, connectionError := None)
  }

  /** A press of the connect button (`handleConnect`). The button is disabled
      while connecting, so a press then does nothing. */
  function PressConnect(s: ConnState, accepted: bool): (s': ConnState)
    ensures s.isConnecting ==> s' == s
    ensures !s.isConnecting && AllWhitespace(s.tempWsUrl) ==>
      s' == s.(connectionError := Some(ErrEmptyAddress))
    ensures !s.isConnecting && !AllWhitespace(s.tempWsUrl) && accepted ==>
      && s'.isConnecting && s'.connectionError == None
      && s'.attempt == Some(Attempt(s.tempWsUrl, true, Connecting))
      && s'.wsUrl == s.wsUrl && s'.tempWsUrl == s.tempWsUrl
    ensures !s.isConnecting && !AllWhitespace(s.tempWsUrl) && !accepted ==>
      s' == s.(connectionError := Some(ErrInvalidAddress))
  {
    BlankIffAllWhitespace(s.tempWsUrl);
    if s.isConnecting then s
    else if IsBlank(s.tempWsUrl) then s.(connectionError := Some(ErrEmptyAddress))
    else
      var pending := s.(isConnecting := true, connectionError := None);
      if accepted then pending.(attempt := Some(Attempt(s.tempWsUrl, true, Connecting)))
      else pending.(connectionError := Some(ErrInvalidAddress), isConnecting := false)
  }

  /** The socket opened: the timer is cleared and the captured address is saved.
      Saving a different address makes the edited address follow it. */
  function SocketOpened(s: ConnState): (s': ConnState)
    ensures s.attempt.Some? && s.attempt.value.ready == Connecting ==>
      && s'.wsUrl == s.attempt.value.url
      && !s'.isConnecting
      && s'.connectionError == s.connectionError
      && s'.attempt == Some(Attempt(s.attempt.value.url, false, Open))
    ensures s.attempt.Some? && s.attempt.value.ready == Connecting ==>
      && (s.attempt.value.url != s.wsUrl ==> s'.tempWsUrl == s'.wsUrl)
      && (s.attempt.value.url == s.wsUrl ==> s'.tempWsUrl == s.tempWsUrl)
    ensures !(s.attempt.Some? && s.attempt.value.ready == Connecting) ==> s' == s
  {
    match s.attempt
    case Some(a) =>
      if a.ready == Connecting then
        var tempWsUrl := if a.url != s.wsUrl then a.url else s.tempWsUrl;
        ConnState(tempWsUrl, a.url, false, s.connectionError, Some(a.(timerArmed := false, ready := Open)))
      else s
    case None => s
  }

  /** The socket reported an error: the timer is cleared and the error shown. */
  function SocketFailed(s: ConnState): (s': ConnState)
    ensures s.attempt.Some? && s.attempt.value.ready != Closed ==>
      s' == s.(isConnecting := false, connectionError := Some(ErrConnection),
               attempt := Some(s.attempt.value.(timerArmed := false, ready := Closed)))
    ensures !(s.attempt.Some? && s.attempt.value.ready != Closed) ==> s' == s
  {
    match s.attempt
    case Some(a) =>
      if a.ready != Closed then
        s.(isConnecting := false, connectionError := Some(ErrConnection),
           attempt := Some(a.(timerArmed := false, ready := Closed)))
      else s
    case None => s
  }

  /** The 5-second timer fired: a socket that is not open is closed and the
      timeout error shown. Closing a socket that never opened fails its
      connection, so it is left `Closing`, where its `error` event can still fire. */
  function TimerFired(s: ConnState): (s': ConnState)
    ensures s.attempt.Some? && s.attempt.value.timerArmed && s.attempt.value.ready != Open ==>
      s' == s.(isConnecting := false, connectionError := Some(ErrTimeout),
               attempt := Some(s.attempt.value.(timerArmed := false, ready := Closing)))
    ensures !(s.attempt.Some? && s.attempt.value.timerArmed) ==> s' == s
  {
    match s.attempt
    case Some(a) =>
      if !a.timerArmed then s
      else if a.ready != Open then
        s.(isConnecting := false, connectionError := Some(ErrTimeout),
           attempt := Some(a.(timerArmed := false, ready := Closing)))
      else s.(attempt := Some(a.(timerArmed := false)))
    case None => s
  }

  function ConnStep(s: ConnState, e: UiEvent): ConnState {
    match e
    case UrlTyped(text) => EditUrl(s, text)
    case ConnectPressed(accepted) => PressConnect(s, accepted)
    case OnOpen => SocketOpened(s)
    case OnError => SocketFailed(s)
    case OnTimeout => TimerFired(s)
  }

  /** Every handler keeps the connection invariant. */
  lemma ConnStepKeepsInv(s: ConnState, e: UiEvent)
    requires ConnInv(s)
    ensures ConnInv(ConnStep(s, e))
  {
  }

  /** With the invariant, a timer that fires while pending always finds the socket
      not open, so it always ends the attempt with the timeout error. */
  lemma PendingTimerAlwaysTimesOut(s: ConnState)
    requires ConnInv(s)
    requires s.isConnecting
    ensures var s' := TimerFired(s);
      !s'.isConnecting && s'.wsUrl == s.wsUrl && s'.connectionError == Some(ErrTimeout)
  {
  }

  /** The saved address changes only to the address of the latest attempt. */
  lemma ConnStepSavesOnlyAttemptUrl(s: ConnState, e: UiEvent)
    ensures var s' := ConnStep(s, e);
      s'.wsUrl == s.wsUrl || (s.attempt.Some? && s'.wsUrl == s.attempt.value.url)
  {
  }

  function ConnRun(s: ConnState, events: seq<UiEvent>): ConnState
    decreases |events|
  {
    if events == [] then s else ConnRun(ConnStep(s, events[0]), events[1..])
  }

  /** From any state that keeps the invariant, every sequence of events keeps
      it, and the saved address is either the starting one or one that was
      non-blank when the button was pressed. */
  lemma {:induction false} ConnRunKeepsInv(s: ConnState, initialUrl: string, events: seq<UiEvent>)
    requires ConnInv(s)
    requires s.wsUrl == initialUrl || !AllWhitespace(s.wsUrl)
    ensures ConnInv(ConnRun(s, events))
    ensures ConnRun(s, events).wsUrl == initialUrl || !AllWhitespace(ConnRun(s, events).wsUrl)
    decreases |events|
  {
    if events != [] {
      var s1 := ConnStep(s, events[0]);
      ConnStepKeepsInv(s, events[0]);
      ConnStepSavesOnlyAttemptUrl(s, events[0]);
      ConnRunKeepsInv(s1, initialUrl, events[1..]);
    }
  }

  /** From the screen as it opens, whatever the saved address, every sequence
      of events keeps the invariant, and the saved address is the opening one or
      a non-blank one. */
  lemma OpeningScreenRunKeepsInv(wsUrl: string, events: seq<UiEvent>)
    ensures ConnInv(ConnRun(InitialConn(wsUrl), events))
    ensures ConnRun(InitialConn(wsUrl), events).wsUrl == wsUrl
      || !AllWhitespace(ConnRun(InitialConn(wsUrl), events).wsUrl)
  {
    ConnRunKeepsInv(InitialConn(wsUrl), wsUrl, events);
  }

  /** The three ways an attempt on a non-blank address ends. Opening saves the
      address that was pressed; an error or a timeout keeps the saved address and
      shows an error. All three clear the "connecting" flag. */
  lemma AttemptOutcomes(s: ConnState)
    requires ConnInv(s)
    requires !s.isConnecting && !AllWhitespace(s.tempWsUrl)
    ensures PressConnect(s, true).isConnecting && PressConnect(s, true).connectionError == None
    ensures var afterOpen := SocketOpened(PressConnect(s, true));
      && afterOpen.wsUrl == s.tempWsUrl && afterOpen.tempWsUrl == s.tempWsUrl
      && !afterOpen.isConnecting && afterOpen.connectionError == None
    ensures var failed := SocketFailed(PressConnect(s, true));
      failed.wsUrl == s.wsUrl && !failed.isConnecting && failed.connectionError == Some(ErrConnection)
    ensures var timedOut := TimerFired(PressConnect(s, true));
      timedOut.wsUrl == s.wsUrl && !timedOut.isConnecting && timedOut.connectionError == Some(ErrTimeout)
  {
  }

  /** When the platform reports the timed-out socket's failure, the `onerror`
      handler replaces the timeout text with the connection-error text; the saved
      address and the cleared flag stay as the timeout left them. */
  lemma TimeoutThenErrorShowsConnectionError(s: ConnState)
    requires ConnInv(s)
    requires s.isConnecting
    ensures var s' := SocketFailed(TimerFired(s));
      && TimerFired(s).connectionError == Some(ErrTimeout)
      && s'.connectionError == Some(ErrConnection)
      && s'.wsUrl == s.wsUrl && !s'.isConnecting
  {
  }

  /** A blank address shows the "empty address" error, starts no attempt and
      leaves the "connecting" flag as it was. */
  lemma BlankAddressMakesNoAttempt(s: ConnState, accepted: bool)
    requires !s.isConnecting
    requires AllWhitespace(s.tempWsUrl)
    ensures var s' := PressConnect(s, accepted);
      s'.connectionError == Some(ErrEmptyAddress)
      && s'.attempt == s.attempt && s'.isConnecting == s.isConnecting && s'.wsUrl == s.wsUrl
  {
  }
}

=== FILE: stepper.dfy ===
/** A value moved by "+" and "-" buttons in fixed steps and clamped to a range:
    "+" gives `min(v + step, hi)` and "-" gives `max(v - step, lo)`. The font
    size of the settings context and the clock size of the settings screen are
    both of this shape. */
module Stepper {

  /** One press of the "+" button. */
  function StepUp(v: int, step: nat, hi: int): (r: int)
    ensures r <= hi && r <= v + step
    ensures r == hi || r == v + step
  {
    if v + step < hi then v + step else hi
  }

  /** One press of the "-" button. */
  function StepDown(v: int, step: nat, lo: int): (r: int)
    ensures r >= lo && r >= v - step
    ensures r == lo || r == v - step
  {
    if v - step > lo then v - step else lo
  }

  datatype Press = Up | Down

  /** The value after pressing the buttons in order `presses`, starting at `v`. */
  function Apply(v: int, step: nat, lo: int, hi: int, presses: seq<Press>): int
    decreases |presses|
  {
    if presses == [] then v
    else
      var v' := match presses[0]
        case Up => StepUp(v, step, hi)
        case Down => StepDown(v, step, lo);
      Apply(v', step, lo, hi, presses[1..])
  }

  /** Any sequence of presses from a value inside `[lo, hi]` stays inside it. */
  lemma {:induction false} ApplyStaysInRange(v: int, step: nat, lo: int, hi: int, presses: seq<Press>)
    requires lo <= v <= hi
    ensures lo <= Apply(v, step, lo, hi, presses) <= hi
    decreases |presses|
  {
    if presses != [] {
      var v' := match presses[0]
        case Up => StepUp(v, step, hi)
        case Down => StepDown(v, step, lo);
      ApplyStaysInRange(v', step, lo, hi, presses[1..]);
    }
  }

  /** With an even step, even bounds and an even start, every value reached is even. */
  lemma {:induction false} ApplyStaysEven(v: int, step: nat, lo: int, hi: int, presses: seq<Press>)
    requires v % 2 == 0 && step % 2 == 0 && lo % 2 == 0 && hi % 2 == 0
    ensures Apply(v, step, lo, hi, presses) % 2 == 0
    decreases |presses|
  {
    if presses != [] {
      var v' := match presses[0]
        case Up => StepUp(v, step, hi)
        case Down => StepDown(v, step, lo);
      assert v' % 2 == 0;
      ApplyStaysEven(v', step, lo, hi, presses[1..]);
    }
  }

  /** Away from the bounds, "-" undoes "+". */
  lemma DownUndoesUp(v: int, step: nat, lo: int, hi: int)
    requires lo <= v && v + step <= hi
    ensures StepDown(StepUp(v, step, hi), step, lo) == v
  {
  }

  /** Away from the bounds, "+" undoes "-". */
  lemma UpUndoesDown(v: int, step: nat, lo: int, hi: int)
    requires v <= hi && lo <= v - step
    ensures StepUp(StepDown(v, step, lo), step, hi) == v
  {
  }

  /** At the bounds the buttons do nothing: "+" at `hi` and "-" at `lo` are fixed points. */
  lemma BoundsAreFixedPoints(step: nat, lo: int, hi: int)
    ensures StepUp(hi, step, hi) == hi
    ensures StepDown(lo, step, lo) == lo
  {
  }
}

=== FILE: themed_text.dfy ===
/** The text component's type-dependent defaults: the default font size per text
    type, the web font weight per text type, the `'default'` type used when none
    is given, and the choice between an explicit style font size and the default.
    Text types are plain strings, as they are at run time, so that values outside
    the five declared types are covered too. */
module ThemedText {
  import opened Wrappers

  const TypeDefault: string := "default"
  const TypeTitle: string := "title"
  const TypeDefaultSemiBold: string := "defaultSemiBold"
  const TypeSubtitle: string := "subtitle"
  const TypeLink: string := "link"

  /** The five declared text types. */
  predicate IsDeclaredType(t: string) {
    t == TypeDefault || t == TypeTitle || t == TypeDefaultSemiBold || t == TypeSubtitle || t == TypeLink
  }

  /** The `type` prop after its default: an omitted type is `'default'`. */
  function ResolveType(prop: Option<string>): (t: string)
    ensures prop.Some? ==> t == prop.value
    ensures prop.None? ==> t == TypeDefault
  {
    prop.GetOr(TypeDefault)
  }

  /** `getDefaultFontSize`: 32 for titles, 20 for subtitles, 16 for everything else. */
  function DefaultFontSize(t: string): (size: int)
    ensures size == 16 || size == 20 || size == 32
    ensures size == 32 <==> t == TypeTitle
    ensures size == 20 <==> t == TypeSubtitle
  {
    if t == TypeTitle then 32
    else if t == TypeSubtitle then 20
    else 16
  }

  /** The font weight of the web base style. Types other than the five declared
      ones fall through to `'normal'`. */
  function WebFontWeight(t: string): (w: string)
    ensures w == "normal" || w == "bold" || w == "600"
    ensures w == "bold" <==> t == TypeTitle || t == TypeSubtitle
    ensures w == "600" <==> t == TypeDefaultSemiBold
  {
    if t == TypeDefault then "normal"
    else if t == TypeTitle then "bold"
    else if t == TypeDefaultSemiBold then "600"
    else if t == TypeSubtitle then "bold"
    else if t == TypeLink then "normal"
    else "normal"
  }

  /** One entry of the native style sheet. */
  datatype NativeStyle = NativeStyle(fontSize: int, fontWeight: Option<string>)

  /** The native style sheet, an independent table of the same defaults; an
      undeclared type gets no entry. */
  function NativeStyleFor(t: string): Option<NativeStyle> {
    if t == TypeDefault then Some(NativeStyle(16, None))
    else if t == TypeDefaultSemiBold then Some(NativeStyle(16, Some("600")))
    else if t == TypeTitle then Some(NativeStyle(32, Some("bold")))
    else if t == TypeSubtitle then Some(NativeStyle(20, Some("bold")))
    else if t == TypeLink then Some(NativeStyle(16, None))
    else None
  }

  /** The native style sheet and the web defaults agree on every declared type:
      same font size, and the web weight is the sheet's weight, `'normal'` where
      the sheet sets none. */
  lemma NativeAndWebDefaultsAgree(t: string)
    ensures NativeStyleFor(t).Some? <==> IsDeclaredType(t)
    ensures NativeStyleFor(t).Some? ==>
      && NativeStyleFor(t).value.fontSize == DefaultFontSize(t)
      && NativeStyleFor(t).value.fontWeight.GetOr("normal") == WebFontWeight(t)
  {
  }

  /** The font size the line height is computed from:
      `flatten(style)?.fontSize || getDefaultFontSize(type)`. A style font size
      counts when it is present and non-zero. */
  function EffectiveFontSize(styleFontSize: Option<real>, typeProp: Option<string>): (size: real)
    ensures styleFontSize.Some? && styleFontSize.value != 0.0 ==> size == styleFontSize.value
    ensures styleFontSize.None? || styleFontSize.value == 0.0 ==>
      size == DefaultFontSize(ResolveType(typeProp)) as real
  {
    if styleFontSize.Some? && styleFontSize.value != 0.0 then styleFontSize.value
    else DefaultFontSize(ResolveType(typeProp)) as real
  }

  /** The font size the web text is drawn with: the base style's default
      overridden by any font size the style sets, zero included. `flattenThrows`
      is the case where flattening the base style together with the style throws
      after flattening the style alone, for the line height, has succeeded: the
      base style is then drawn alone and the style's font size is ignored. */
  function WebStyleFontSize(styleFontSize: Option<real>, typeProp: Option<string>, flattenThrows: bool): (size: real)
    ensures !flattenThrows && styleFontSize.Some? ==> size == styleFontSize.value
    ensures flattenThrows || styleFontSize.None? ==> size == DefaultFontSize(ResolveType(typeProp)) as real
  {
    if flattenThrows then DefaultFontSize(ResolveType(typeProp)) as real
    else match styleFontSize
      case Some(v) => v
      case None => DefaultFontSize(ResolveType(typeProp)) as real
  }

  /** On the web, when flattening succeeds, the drawn font size and the one the
      line height uses agree except when the style sets a font size of zero.
      When only the combined flattening throws, they agree exactly when the style's size is absent,
      zero, or equal to the default. */
  lemma WebSizeMatchesEffectiveUnlessZero(styleFontSize: Option<real>, typeProp: Option<string>)
    ensures WebStyleFontSize(styleFontSize, typeProp, false) != EffectiveFontSize(styleFontSize, typeProp)
      <==> styleFontSize == Some(0.0)
    ensures WebStyleFontSize(styleFontSize, typeProp, true) == EffectiveFontSize(styleFontSize, typeProp)
      <==> (styleFontSize.None? || styleFontSize.value == 0.0
            || styleFontSize.value == DefaultFontSize(ResolveType(typeProp)) as real)
  {
  }
}

=== FILE: verse_server.dfy ===
/** The verse-selection server: a fixed table of verses, a current index, a
    three-verse window around it, and the `setReference` message that moves the
    index and broadcasts the new window to every connected client. Sockets and
    JSON are abstracted: an inbound message arrives already decoded, and the
    messages the server sends are returned as an outbox. */
module VerseServer {
  import opened Wrappers

  datatype Verse = Verse(text: string, reference: string)

  /** The fixed verse table, in display order. */
  const Verses: seq<Verse> := [
    Verse("In the beginning was the Word, and the Word was with God, and the Word was God.", "1:1"),
    Verse("He was with God in the beginning.", "1:2"),
    Verse("Through him all things were made; without him nothing was made that has been made.", "1:3"),
    Verse("In him was life, and that life was the light of all mankind.", "1:4"),
    Verse("The light shines in the darkness, and the darkness has not overcome it.", "1:5"),
    Verse("The Word became flesh and made his dwelling among us.", "1:14"),
    Verse("For God so loved the world that he gave his one and only Son.", "3:16"),
    Verse("I am the way and the truth and the life.", "14:6"),
    Verse("Peace I leave with you; my peace I give you.", "14:27"),
    Verse("Greater love has no one than this: to lay down one's life for one's friends.", "15:13")
  ]

  /** The index the server starts at. */
  const InitialIndex: nat := 4

  /** The book name every outbound message carries. */
  const CurrentBook: string := "John"

  /** Index of the verse before `i`, wrapping from the first verse to the last. */
  function PrevIndex(len: nat, i: nat): (r: nat)
    requires i < len
    ensures r < len
    ensures i > 0 ==> r == i - 1
    ensures i == 0 ==> r == len - 1
  {
    (i - 1 + len) % len
  }

  /** Index of the verse after `i`, wrapping from the last verse to the first. */
  function NextIndex(len: nat, i: nat): (r: nat)
    requires i < len
    ensures r < len
    ensures i < len - 1 ==> r == i + 1
    ensures i == len - 1 ==> r == 0
  {
    (i + 1) % len
  }

  /** The circular window previous / current / next around `center`. */
  function VerseGroup(table: seq<Verse>, center: nat): (g: seq<Verse>)
    requires center < |table|
    ensures |g| == 3
    ensures g[1] == table[center]
    ensures center > 0 ==> g[0] == table[center - 1]
    ensures center == 0 ==> g[0] == table[|table| - 1]
    ensures center < |table| - 1 ==> g[2] == table[center + 1]
    ensures center == |table| - 1 ==> g[2] == table[0]
  {
    [table[PrevIndex(|table|, center)], table[center], table[NextIndex(|table|, center)]]
  }

  /** Does verse `v` match the `reference` field of a message (absent matches nothing)? */
  predicate Matches(v: Verse, reference: Option<string>) {
    reference == Some(v.reference)
  }

  /** `Array.prototype.findIndex` from position `k`: the first matching index at or
      after `k`, or -1 when none matches. */
  function FindIndexFrom(table: seq<Verse>, reference: Option<string>, k: nat): (r: int)
    requires k <= |table|
    ensures r == -1 || k <= r < |table|
    ensures r == -1 <==> forall j :: k <= j < |table| ==> !Matches(table[j], reference)
    ensures r != -1 ==> Matches(table[r], reference)
    ensures r != -1 ==> forall j :: k <= j < r ==> !Matches(table[j], reference)
    decreases |table| - k
  {
    if k == |table| then -1
    else if Matches(table[k], reference) then k
    else FindIndexFrom(table, reference, k + 1)
  }

  /** `verses.findIndex(v => v.reference === reference)`. */
  function FindIndex(table: seq<Verse>, reference: Option<string>): (r: int)
    ensures r == -1 || 0 <= r < |table|
    ensures r == -1 <==> forall j :: 0 <= j < |table| ==> !Matches(table[j], reference)
    ensures r != -1 ==> Matches(table[r], reference)
    ensures r != -1 ==> forall j :: 0 <= j < r ==> !Matches(table[j], reference)
  {
    FindIndexFrom(table, reference, 0)
  }

  /** Does some verse of the table carry `reference`? By the contract of
      `FindIndex`, this holds exactly when some `Verses[j]` matches. */
  predicate Known(reference: Option<string>) {
    FindIndex(Verses, reference) != -1
  }

  /** No two verses of a table share a reference. */
  predicate DistinctReferences(table: seq<Verse>) {
    forall i, j :: 0 <= i < j < |table| ==> table[i].reference != table[j].reference
  }

  /** The verse table's references are pairwise distinct. */
  lemma VersesHaveDistinctReferences()
    ensures DistinctReferences(Verses)
  {
  }

  /** With distinct references, a found index is the only matching index. */
  lemma FoundIndexIsUnique(table: seq<Verse>, reference: Option<string>, j: nat)
    requires DistinctReferences(table)
    requires j < |table| && Matches(table[j], reference)
    ensures FindIndex(table, reference) == j
  {
    var r := FindIndex(table, reference);
    assert r != -1;
  }

  // ---------------------------------------------------------------------------
  // Server state and messages

  type ClientId = nat

  /** The server's state: the current verse index and the connected clients, in
      connection order (the order a broadcast visits them). */
  datatype ServerState = ServerState(current: nat, clients: seq<ClientId>)

  /** A decoded inbound message. `SetReference` carries the `reference` field,
      absent when the message has none; `Other` is any message whose `type` is
      not `setReference`; `Malformed` is one whose decoding failed. */
  datatype Inbound = SetReference(reference: Option<string>) | Other | Malformed

  /** The payload of an outbound `verses` message. */
  datatype VersesMessage = VersesMessage(currentBook: string, verses: seq<Verse>)

  /** One message sent to one client. */
  datatype Delivery = Delivery(to: ClientId, message: VersesMessage)

  ghost predicate Valid(s: ServerState) {
    && s.current < |Verses|
    && forall i, j :: 0 <= i < j < |s.clients| ==> s.clients[i] != s.clients[j]
  }

  const Initial: ServerState := ServerState(InitialIndex, [])

  /** The `verses` message describing index `i`. */
  function VersesPayload(i: nat): (m: VersesMessage)
    requires i < |Verses|
    ensures m.currentBook == "John"
    ensures |m.verses| == 3 && m.verses[1] == Verses[i]
    ensures m.verses[0] == Verses[PrevIndex(|Verses|, i)]
    ensures m.verses[2] == Verses[NextIndex(|Verses|, i)]
  {
    VersesMessage(CurrentBook, VerseGroup(Verses, i))
  }

  /** Send `m` to every client in `clients`, in order. */
  function Broadcast(clients: seq<ClientId>, m: VersesMessage): (out: seq<Delivery>)
    ensures |out| == |clients|
    ensures forall k :: 0 <= k < |out| ==> out[k] == Delivery(clients[k], m)
  {
    seq(|clients|, k requires 0 <= k < |clients| => Delivery(clients[k], m))
  }

  /** A new client connects: it joins the end of the client list, which is kept
      in connection order, and receives the current window, addressed to it alone. */
  function Connect(s: ServerState, id: ClientId): (res: (ServerState, seq<Delivery>))
    requires Valid(s)
    ensures Valid(res.0)
    ensures res.0.current == s.current
    ensures id in res.0.clients
    ensures forall c :: c in res.0.clients <==> c in s.clients || c == id
    ensures id !in s.clients ==> res.0.clients == s.clients + [id]
    ensures id in s.clients ==> res.0.clients == s.clients
    ensures res.1 == [Delivery(id, VersesPayload(s.current))]
  {
    var clients := if id in s.clients then s.clients else s.clients + [id];
    (ServerState(s.current, clients), [Delivery(id, VersesPayload(s.current))])
  }

  /** Handle one inbound message. */
  function Handle(s: ServerState, msg: Inbound): (res: (ServerState, seq<Delivery>))
    requires Valid(s)
    ensures Valid(res.0)
    ensures res.0.clients == s.clients
    ensures msg.SetReference? && Known(msg.reference) ==>
      && Matches(Verses[res.0.current], msg.reference)
      && |res.1| == |s.clients|
    ensures !(msg.SetReference? && Known(msg.reference)) ==> res == (s, [])
  {
    match msg
    case SetReference(reference) =>
      var newIndex := FindIndex(Verses, reference);
      if newIndex != -1 then
        var s' := s.(current := newIndex);
        (s', Broadcast(s'.clients, VersesPayload(newIndex)))
      else
        (s, [])
    case Other => (s, [])
    case Malformed => (s, [])
  }

  /** A present reference moves the index to the (unique) matching verse and
      broadcasts its window to every connected client. */
  lemma SetReferenceFound(s: ServerState, j: nat)
    requires Valid(s)
    requires j < |Verses|
    ensures var (s', out) := Handle(s, SetReference(Some(Verses[j].reference)));
      && s'.current == j
      && s'.clients == s.clients
      && |out| == |s.clients|
      && forall k :: 0 <= k < |out| ==>
           out[k].to == s.clients[k]
           && out[k].message.currentBook == "John"
           && out[k].message.verses == VerseGroup(Verses, j)
  {
    VersesHaveDistinctReferences();
    FoundIndexIsUnique(Verses, Some(Verses[j].reference), j);
  }

  /** A reference that names no verse (or no reference at all) changes nothing
      and sends nothing. */
  lemma SetReferenceAbsent(s: ServerState, reference: Option<string>)
    requires Valid(s)
    requires forall j :: 0 <= j < |Verses| ==> reference != Some(Verses[j].reference)
    ensures Handle(s, SetReference(reference)) == (s, [])
  {
  }

  /** A message of another type, or one that failed to decode, changes nothing
      and sends nothing. */
  lemma IgnoredMessages(s: ServerState)
    requires Valid(s)
    ensures Handle(s, Other) == (s, [])
    ensures Handle(s, Malformed) == (s, [])
  {
  }

  /** Repeating the same `setReference` leaves the state where the first put it,
      and broadcasts the same messages again. */
  lemma SetReferenceIdempotent(s: ServerState, reference: Option<string>)
    requires Valid(s)
    ensures var (s1, out1) := Handle(s, SetReference(reference));
      Handle(s1, SetReference(reference)) == (s1, out1)
  {
  }

  /** The initial state points at the verse "1:5". */
  lemma InitialPointsAtOneFive()
    ensures Valid(Initial)
    ensures Verses[Initial.current].reference == "1:5"
    ensures FindIndex(Verses, Some("1:5")) == Initial.current
  {
    VersesHaveDistinctReferences();
    FoundIndexIsUnique(Verses, Some("1:5"), 4);
  }

  // ---------------------------------------------------------------------------
  // Runs of events

  /** Something that happens to the server: a client connects, or a client's
      message arrives. */
  datatype Event = Connected(id: ClientId) | Received(msg: Inbound)

  /** One event, routed to `Connect` or `Handle`. */
  function StepEvent(s: ServerState, e: Event): (res: (ServerState, seq<Delivery>))
    requires Valid(s)
    ensures Valid(res.0)
  {
    match e
    case Connected(id) => Connect(s, id)
    case Received(msg) => Handle(s, msg)
  }

  /** Every message a step sends is the `verses` message for the state the step
      leaves behind, addressed to a connected client. */
  lemma StepSendsCurrentWindow(s: ServerState, e: Event)
    requires Valid(s)
    ensures var (s', out) := StepEvent(s, e);
      forall d :: d in out ==>
        && d.to in s'.clients
        && d.message == VersesMessage("John", VerseGroup(Verses, s'.current))
  {
  }

  /** Process a sequence of events, collecting everything sent. */
  function Run(s: ServerState, events: seq<Event>): (res: (ServerState, seq<Delivery>))
    requires Valid(s)
    decreases |events|
  {
    if events == [] then (s, [])
    else
      var (s1, out1) := StepEvent(s, events[0]);
      var (s2, out2) := Run(s1, events[1..]);
      (s2, out1 + out2)
  }

  /** From any valid state, any run of events keeps the index inside the table,
      and every `verses` message sent names the book John and carries exactly
      three verses drawn from the table. */
  lemma {:induction false} RunKeepsIndexAndMessagesWellFormed(s: ServerState, events: seq<Event>)
    requires Valid(s)
    ensures Valid(Run(s, events).0)
    ensures forall d :: d in Run(s, events).1 ==>
      && d.message.currentBook == "John"
      && |d.message.verses| == 3
      && forall v :: v in d.message.verses ==> v in Verses
    decreases |events|
  {
    if events != [] {
      var (s1, out1) := StepEvent(s, events[0]);
      StepSendsCurrentWindow(s, events[0]);
      RunKeepsIndexAndMessagesWellFormed(s1, events[1..]);
      var (s2, out2) := Run(s1, events[1..]);
      assert Run(s, events).1 == out1 + out2;
      forall d | d in out1
        ensures d.message.currentBook == "John" && |d.message.verses| == 3
        ensures forall v :: v in d.message.verses ==> v in Verses
      {
        var g := VerseGroup(Verses, s1.current);
        assert d.message.verses == g;
        assert g == [Verses[PrevIndex(|Verses|, s1.current)], Verses[s1.current], Verses[NextIndex(|Verses|, s1.current)]];
      }
    }
  }
}

=== FILE: wrappers.dfy ===
/** Small failure-carrying datatypes shared by the other modules. */
module Wrappers {

  /** A value that may be absent: a missing field, a failed parse. */
  datatype Option<+T> = None | Some(value: T) {

    /** The carried value, or `default` when there is none. */
    function GetOr(default: T): T {
      match this
      case Some(v) => v
      case None => default
    }
  }

  /** The outcome of an operation that either yields a value or raises an error. */
  datatype Result<+R, +E> = Success(value: R) | Failure(error: E)
}
